=== FILE: README.md ===
# Particle filter localisation: a Dafny model

This project models the discrete core of the `ParticleFilter` of a
Kidnapped-Vehicle localiser. The filter keeps a fixed set of weighted pose
hypotheses (particles). Each timestep it moves them, weighs them against
range-limited landmark observations, and resamples them with a resampling
wheel.

Coordinates and weights are Dafny `real`s. Every random draw is an explicit
input:
- the normal draws of `init` and `prediction` are standard-normal samples `z`, so a draw is `mean + stddev * z`;
- the resampling wheel's start index and its N uniform step draws are parameters.

Sine, cosine and the Gaussian density are function parameters (`cos`, `sin`,
`gauss(dx, dy)`), so nothing is assumed about their values.

Modules, one per component of `src/particle_filter.cpp`:

- `Particles` (particles.dfy): `Particle`, `LandmarkObs`, `MapLandmark`, `Option`, pose deviations and noise samples.
- `Association` (association.dfy): nearest-neighbour data association. Distances are compared as squares, which gives the same argmin and the same tie-break as comparing `sqrt` distances.
- `Weighting` (weighting.dfy): the in-range box filter and the vehicle-to-map transform. Also the last-match lookup of the associated prediction, and the weight product.
- `Resampling` (resampling.dfy): the resampling wheel, with the inner walk (`Spin`) proved to terminate.
- `Lifecycle` (lifecycle.dfy): `init`, `prediction` and `SetAssociations`.

What the code does at its edges, and the model with it:
- no operation checks `is_initialized`;
- `resample` has no special case for all-zero weights, so the model requires a positive maximum weight;
- an observation whose associated id matches no prediction is not skipped. The code reads coordinates that were never assigned, and the model returns `None` there.

## Model

| member | source | states |
|---|---|---|
| Association.NearestIndex | src/particle_filter.cpp:104-122 | The scan finds nothing exactly when there are no predictions, and otherwise an index inside the prediction list. |
| Association.NearestIndexIsFirstNearest | src/particle_filter.cpp:104-122 | Because the comparison is a strict `<`, the index found is the first entry at minimal distance: none is closer, and every earlier entry is strictly farther. |
| Association.FirstNearestUnique | src/particle_filter.cpp:118-122 | The first entry at minimal distance is unique, so ties are decided by position alone. |
| Association.DataAssociation | src/particle_filter.cpp:91-128 | Keeps the number of observations and each one's x and y. Each id becomes that of the first nearest prediction, or -1 for every observation when there are no predictions. |
| Association.AssociateObservations | src/particle_filter.cpp:97-127 | The nested loops, with the running minimum starting at "infinitely far" and only a strictly smaller distance replacing it, compute exactly `DataAssociation`. |
| Weighting.InRangePredictions | src/particle_filter.cpp:157-172 | A map landmark is among the predictions, with its id and coordinates, if and only if both `|lx-px|` and `|ly-py|` are at most the range. |
| Weighting.InRangePredictionsConcat | src/particle_filter.cpp:157-172 | Filtering a concatenation concatenates the filtered parts, so the kept landmarks stay in map order, each once per occurrence. |
| Weighting.ToMapFrame | src/particle_filter.cpp:179-181 | The transformed observation keeps its id, and for a genuine rotation (cos² + sin² = 1) it lies at the same distance from the particle as the vehicle-frame observation from the vehicle. |
| Weighting.TransformObservations | src/particle_filter.cpp:176-182 | One transformed observation per observation, in the same order and with the same id, each rotated by the particle's heading and moved to its position. |
| Weighting.MapFrameRoundTrip | src/particle_filter.cpp:177-182 | When cos² + sin² = 1, undoing the translation and rotation recovers the vehicle-frame observation, id included. |
| Weighting.LastWithId | src/particle_filter.cpp:205-211 | The lookup finds nothing exactly when no prediction has the id. Otherwise it yields the last prediction with that id, because the loop has no break. |
| Weighting.ObservationFactor | src/particle_filter.cpp:202-217 | There is no factor exactly when no prediction carries the associated id, which is the case where the code reads unassigned coordinates. |
| Weighting.ObservationFactorAtLast | src/particle_filter.cpp:205-217 | When the k-th prediction is the last one carrying the associated id, the factor is the density of (prediction k − observation). |
| Weighting.ParticleWeight | src/particle_filter.cpp:188-221 | With no observations the weight is exactly 1.0. |
| Weighting.WeightAccumulates | src/particle_filter.cpp:188-221 | Each further observation multiplies the accumulated weight by its own factor, in observation order, starting from 1.0. |
| Weighting.ProductConcat | src/particle_filter.cpp:188-221 | The weight accumulated over two runs of observations is the product of the weights of each run. |
| Weighting.WeightNonNegative | src/particle_filter.cpp:188-221 | If the density is never negative, every defined weight is non-negative. That is the condition the resampling wheel needs of its weights. |
| Weighting.AssociatedLookupSucceeds | src/particle_filter.cpp:202-211 | After association with at least one prediction, every associated id belongs to some prediction, so the lookup finds one. |
| Weighting.LookupsSucceedIff | src/particle_filter.cpp:194-212 | Every lookup succeeds if and only if there are no observations or at least one landmark is in range. |
| Weighting.UpdateParticle | src/particle_filter.cpp:145-222 | The weight of a particle is defined if and only if there are no observations or some landmark is in range. Only the weight changes. With no observations it is exactly 1.0. |
| Weighting.UpdateWeights | src/particle_filter.cpp:130-223 | The whole set is defined exactly when every particle's update is, keeps its size, and changes only weights. |
| Weighting.PerfectMatchScenario | src/particle_filter.cpp:157-220 | A particle at (0,0,0), a landmark at (5,0), range 10 and an observation at (5,0) give the weight `gauss(0,0)`, the density at zero offset. |
| Resampling.MaxWeight | src/particle_filter.cpp:245 | The result bounds every weight from above and is one of the weights. |
| Resampling.WheelStepDecreases | src/particle_filter.cpp:256-260 | One step of the inner walk either keeps the number of turns left and moves the index forward, or wraps round and lowers the number of turns left by exactly one, one full turn of the total weight. |
| Resampling.Spin | src/particle_filter.cpp:256-260 | Given non-negative weights with one positive, the inner walk terminates. The index stays in range, and on exit 0 <= beta <= weights[index]. A positive beta stays positive, and a beta not above the weight under the index leaves index and beta unchanged. The wheel position, beta plus the weights before the index, is kept up to a whole number of full turns of the total weight. |
| Resampling.WheelDraw | src/particle_filter.cpp:255-261 | After one scaled draw and the walk that follows, the particle reached is the draw's pick: the same index while beta and the draw are zero, otherwise the particle whose half-open slot of cumulative weight holds the draw's wheel position. A positive beta stays positive, and the bookkeeping carries on to the next draw. |
| Resampling.WheelPicks | src/particle_filter.cpp:250-262 | One pick per draw, each in range. While every draw so far is zero the start index is picked. Afterwards the k-th pick is the particle whose slot (W(i), W(i+1)] of cumulative weight W holds the k-th wheel position, modulo the total weight. That position is the weight before the start index plus twice the draws so far, and such a pick has positive weight. |
| Resampling.SelectedUnique | src/particle_filter.cpp:255-261 | At most one particle meets the pick description for a draw, so it determines the pick. The half-open slots do not overlap and span exactly one turn of the total weight. |
| Resampling.BoundaryScenario | src/particle_filter.cpp:255-261 | With weights [1, 0, 1], start 0 and draws [0.5, 0, 0.1], the first two picks are both particle 0. `beta` = 1.0 does not exceed the first weight, so the walk stops there and never on the zero-weight particle. |
| Resampling.Resample | src/particle_filter.cpp:225-265 | Yields exactly N particles, each equal to `particles[index]` for an index in [0, N). The index is the start while every draw so far is zero, and otherwise the unique particle whose slot of cumulative weight holds that draw's wheel position. Once any draw has been positive, the particle picked has positive weight. |
| Lifecycle.Init | src/particle_filter.cpp:23-54 | Sets the initialised flag and exactly 100 particles and weights. Particle i has id i and weight 1.0, with an entry 1.0 in `weights` and no diagnostics. |
| Lifecycle.InitIdsUnique | src/particle_filter.cpp:42-44 | Ids are unique within the initial particle set. |
| Lifecycle.InitZeroSampleOnEstimate | src/particle_filter.cpp:34-47 | Whatever the deviations, a particle whose three normal draws fall exactly on their means lies exactly on the given pose. |
| Lifecycle.PredictParticle | src/particle_filter.cpp:68-88 | Only the pose changes. Below the 0.01 yaw-rate threshold the heading changes by the noise alone; otherwise it also advances by yaw_rate·dt. |
| Lifecycle.StraightMotionIsDeterministic | src/particle_filter.cpp:72-86 | With zero yaw rate and noise draws of exactly zero, for any deviations, the step is x + v·dt·cos θ, y + v·dt·sin θ, and θ is unchanged. |
| Lifecycle.Predict | src/particle_filter.cpp:68-88 | Every particle is moved by the single-particle step with its own noise draws. The number of particles is kept, and only poses change. |
| Lifecycle.SetAssociations | src/particle_filter.cpp:267-284 | Associations, sense_x and sense_y become the given sequences, and id, pose and weight are unchanged. |
| Lifecycle.SetAssociationsOverwrites | src/particle_filter.cpp:274-281 | Nothing from an earlier call survives a later one. |

## Left out

- Random number generation: the shared engine and the normal and uniform distributions become input samples. Their statistics are not modelled.
- Trigonometry, `exp` and `sqrt`: `sin`, `cos` and the Gaussian density are function parameters. `dist` is replaced by the squared distance, which orders distances the same way.
- Floating point: reals do not round or overflow. Map landmark coordinates are read as `float` in the source, and the model does not reproduce that narrowing.
- Association.NearestIndex: the running minimum starts at `numeric_limits<double>::max()` in the source. The model treats it as infinitely far, so the first prediction is always accepted. A finite distance can only fail that first comparison if it is at least the largest double.
- Weighting.UpdateParticle: when an observation's associated id matches no prediction, the source reads uninitialised coordinates. This happens exactly when observations exist and no landmark is in range. The model returns `None` instead of a value.
- Weighting.ParticleWeight: the Gaussian factor is `gauss(predicted_x - obs_x, predicted_y - obs_y)`, with σx and σy folded into the parameter.
- Resampling.Resample: requires non-negative weights with a positive maximum and draws in [0, max_weight). With all-zero weights the source draws from `uniform_real_distribution(0.0, 0.0)`, whose range [0, 0) is empty and whose density is undefined. An empty particle set is excluded because `max_element` of an empty vector is dereferenced.
- Resampling.Resample: the 2.0 step multiplier is kept as `StepScale`. Whether it is statistically sound is not a question the model addresses.
- The `weights` member of the filter is written only by `init` (`Lifecycle.Init`). `resample` uses a local vector of the same name, and `updateWeights` never writes it, so the model keeps that member only in `FilterState`.
- Lifecycle.Init and Lifecycle.PredictParticle accept any real deviation. `std::normal_distribution` requires a positive standard deviation, so the source has no defined behaviour at zero or negative deviations; the model does not restrict them, and its lemmas about the estimate speak of zero draws, not zero deviations.
- `init` resizes an existing vector. If it were called twice, older particles' diagnostics would survive. The model builds a fresh set.
- `getAssociations`, `getSenseX` and `getSenseY`: these are text rendering through `stringstream`, which is boundary formatting of float output.
- The loop bound `num_particles` is taken to equal the number of particles held. `Predict` and `UpdateWeights` iterate over the sequence itself.

=== FILE: association.dfy ===
/** Nearest-neighbour data association between predicted landmarks and
    map-frame observations. Euclidean distance is compared through its
    square: the square root is strictly increasing on non-negative reals, so
    the minimum and the tie-break come out the same. */
module Association {
  import opened Particles

  /** The id written into an observation when there is nothing to match. */
  const NoMatch: int := -1

  function SqDist(o: LandmarkObs, p: LandmarkObs): (d: real)
    ensures d >= 0.0
  {
    (o.x - p.x) * (o.x - p.x) + (o.y - p.y) * (o.y - p.y)
  }

  /** `k` is the first entry of `predicted` at minimal distance from `o`:
      no entry is strictly closer, and every earlier entry is strictly farther. */
  ghost predicate IsFirstNearest(o: LandmarkObs, predicted: seq<LandmarkObs>, k: int) {
    && 0 <= k < |predicted|
    && (forall j :: 0 <= j < |predicted| ==> SqDist(o, predicted[k]) <= SqDist(o, predicted[j]))
    && (forall j :: 0 <= j < k ==> SqDist(o, predicted[k]) < SqDist(o, predicted[j]))
  }

  /** The first-nearest entry is determined uniquely. */
  lemma FirstNearestUnique(o: LandmarkObs, predicted: seq<LandmarkObs>, k1: int, k2: int)
    requires IsFirstNearest(o, predicted, k1)
    requires IsFirstNearest(o, predicted, k2)
    ensures k1 == k2
  {
    assert SqDist(o, predicted[k1]) == SqDist(o, predicted[k2]);
  }

  /** The left-to-right scan with a strict comparison: a later entry replaces
      the current best only when it is strictly closer. `None` means no entry
      has been seen, the scan's "infinitely far" starting state. */
  function NearestIndex(o: LandmarkObs, predicted: seq<LandmarkObs>): (r: Option<nat>)
    ensures r.None? <==> |predicted| == 0
    ensures r.Some? ==> r.value < |predicted|
    decreases |predicted|
  {
    if |predicted| == 0 then None
    else
      var last := |predicted| - 1;
      var best := NearestIndex(o, predicted[..last]);
      if best.None? || SqDist(o, predicted[last]) < SqDist(o, predicted[best.value]) then Some(last)
      else best
  }

  /** The scan finds the first entry at minimal distance. */
  lemma {:induction false} NearestIndexIsFirstNearest(o: LandmarkObs, predicted: seq<LandmarkObs>)
    requires |predicted| > 0
    ensures IsFirstNearest(o, predicted, NearestIndex(o, predicted).value)
    decreases |predicted|
  {
    var last := |predicted| - 1;
    var prefix := predicted[..last];
    assert forall j :: 0 <= j < last ==> prefix[j] == predicted[j];
    if last > 0 {
      NearestIndexIsFirstNearest(o, prefix);
    }
  }

  /** The id an observation is associated with. */
  function AssociatedId(o: LandmarkObs, predicted: seq<LandmarkObs>): (id: int)
    ensures |predicted| == 0 ==> id == NoMatch
    ensures |predicted| > 0 ==> exists k :: IsFirstNearest(o, predicted, k) && id == predicted[k].id
  {
    match NearestIndex(o, predicted)
    case None => NoMatch
    case Some(k) =>
      NearestIndexIsFirstNearest(o, predicted);
      predicted[k].id
  }

  /** Every observation keeps its coordinates and receives the id of the
      first predicted entry at minimal distance, or `NoMatch` when there are
      no predictions. */
  function DataAssociation(predicted: seq<LandmarkObs>, observations: seq<LandmarkObs>): (r: seq<LandmarkObs>)
    ensures |r| == |observations|
    ensures forall i :: 0 <= i < |r| ==> r[i].x == observations[i].x && r[i].y == observations[i].y
    ensures |predicted| == 0 ==> forall i :: 0 <= i < |r| ==> r[i].id == NoMatch
    ensures |predicted| > 0 ==>
      forall i :: 0 <= i < |r| ==>
        exists k :: IsFirstNearest(observations[i], predicted, k) && r[i].id == predicted[k].id
  {
    var r := seq(|observations|, i requires 0 <= i < |observations| =>
      observations[i].(id := AssociatedId(observations[i], predicted)));
    assert forall i :: 0 <= i < |r| ==> r[i].id == AssociatedId(observations[i], predicted);
    r
  }

  /** The nested loops of the source: for each observation, scan the
      predictions keeping a running minimum distance and its id, then
      overwrite the observation's id. Agrees with `DataAssociation`. */
  method AssociateObservations(predicted: seq<LandmarkObs>, observations: seq<LandmarkObs>)
    returns (r: seq<LandmarkObs>)
    ensures r == DataAssociation(predicted, observations)
  {
    r := observations;
    for i := 0 to |observations|
      invariant |r| == |observations|
      invariant forall k :: 0 <= k < i ==> r[k] == DataAssociation(predicted, observations)[k]
      invariant forall k :: i <= k < |r| ==> r[k] == observations[k]
    {
      var o := observations[i];
      var minDistance: Option<real> := None;
      var mapId := NoMatch;
      for j := 0 to |predicted|
        invariant NearestIndex(o, predicted[..j]).None? ==> minDistance.None? && mapId == NoMatch
        invariant NearestIndex(o, predicted[..j]).Some? ==>
          var k := NearestIndex(o, predicted[..j]).value;
          k < j && minDistance == Some(SqDist(o, predicted[k])) && mapId == predicted[k].id
      {
        assert predicted[..j + 1][..j] == predicted[..j];
        var p := predicted[j];
        var curDistance := SqDist(o, p);
        if minDistance.None? || curDistance < minDistance.value {
          minDistance := Some(curDistance);
          mapId := p.id;
        }
      }
      assert predicted[..|predicted|] == predicted;
      r := r[i := o.(id := mapId)];
    }
  }
}

=== FILE: lifecycle.dfy ===
/** The filter's state, its initialisation, the motion prediction and the
    attachment of association diagnostics to a particle. Normal draws are
    given as standard-normal samples; sine and cosine are parameters. */
module Lifecycle {
  import opened Particles

  /** The number of particles `init` creates. */
  const InitialParticleCount: nat := 100

  /** Below this absolute yaw rate the motion is treated as straight. */
  const YawRateThreshold: real := 0.01

  datatype FilterState = FilterState(
    numParticles: int,
    isInitialized: bool,
    particles: seq<Particle>,
    weights: seq<real>)

  /** Particle `i` is drawn around the initial estimate with the i-th triple
      of samples, and every particle starts with weight 1.0, id `i` and no
      diagnostics. */
  function Init(x: real, y: real, theta: real, std: PoseStd, samples: seq<Noise>): (f: FilterState)
    requires |samples| == InitialParticleCount
    ensures f.isInitialized
    ensures f.numParticles == InitialParticleCount
    ensures |f.particles| == InitialParticleCount && |f.weights| == InitialParticleCount
    ensures forall i :: 0 <= i < |f.particles| ==>
      && f.particles[i].id == i
      && f.particles[i].weight == 1.0
      && f.weights[i] == 1.0
      && f.particles[i].associations == [] && f.particles[i].senseX == [] && f.particles[i].senseY == []
  {
    var particles := seq(InitialParticleCount, i requires 0 <= i < InitialParticleCount =>
      Particle(i,
               x + std.x * samples[i].x,
               y + std.y * samples[i].y,
               theta + std.theta * samples[i].theta,
               1.0, [], [], []));
    FilterState(InitialParticleCount, true, particles, seq(InitialParticleCount, _ => 1.0))
  }

  /** Ids are unique within the initial generation. */
  lemma InitIdsUnique(x: real, y: real, theta: real, std: PoseStd, samples: seq<Noise>, i: int, j: int)
    requires |samples| == InitialParticleCount
    requires 0 <= i < j < InitialParticleCount
    ensures Init(x, y, theta, std, samples).particles[i].id != Init(x, y, theta, std, samples).particles[j].id
  {
  }

  /** Whatever the deviations, a particle whose samples are all zero sits
      exactly on the initial estimate. */
  lemma InitZeroSampleOnEstimate(x: real, y: real, theta: real, std: PoseStd, samples: seq<Noise>, i: int)
    requires |samples| == InitialParticleCount
    requires 0 <= i < InitialParticleCount
    requires samples[i] == Noise(0.0, 0.0, 0.0)
    ensures
      var p := Init(x, y, theta, std, samples).particles[i];
      p.x == x && p.y == y && p.theta == theta
  {
  }

  /** The motion step of one particle: the kinematic update chosen by the
      yaw-rate threshold, then the process noise. Only the pose changes. */
  function PredictParticle(p: Particle, dt: real, std: PoseStd, velocity: real, yawRate: real,
                           cos: real -> real, sin: real -> real, sample: Noise): (q: Particle)
    ensures q == p.(x := q.x, y := q.y, theta := q.theta)
    ensures Abs(yawRate) < YawRateThreshold ==> q.theta == p.theta + std.theta * sample.theta
    ensures Abs(yawRate) >= YawRateThreshold ==> q.theta == p.theta + yawRate * dt + std.theta * sample.theta
  {
    var moved :=
      if Abs(yawRate) < YawRateThreshold then
        p.(x := p.x + velocity * dt * cos(p.theta),
           y := p.y + velocity * dt * sin(p.theta))
      else
        p.(x := p.x + velocity / yawRate * (sin(p.theta + yawRate * dt) - sin(p.theta)),
           y := p.y + velocity / yawRate * (cos(p.theta) - cos(p.theta + yawRate * dt)),
           theta := p.theta + yawRate * dt);
    moved.(x := moved.x + std.x * sample.x,
           y := moved.y + std.y * sample.y,
           theta := moved.theta + std.theta * sample.theta)
  }

  /** With no yaw and zero noise samples the prediction is the straight-line
      step, whatever the deviations. */
  lemma StraightMotionIsDeterministic(p: Particle, dt: real, std: PoseStd, velocity: real,
                                      cos: real -> real, sin: real -> real)
    ensures
      var q := PredictParticle(p, dt, std, velocity, 0.0, cos, sin, Noise(0.0, 0.0, 0.0));
      && q.x == p.x + velocity * dt * cos(p.theta)
      && q.y == p.y + velocity * dt * sin(p.theta)
      && q.theta == p.theta
  {
  }

  /** The prediction of every particle, each with its own samples. */
  function Predict(particles: seq<Particle>, dt: real, std: PoseStd, velocity: real, yawRate: real,
                   cos: real -> real, sin: real -> real, samples: seq<Noise>): (r: seq<Particle>)
    requires |samples| == |particles|
    ensures |r| == |particles|
    ensures forall i :: 0 <= i < |r| ==>
      r[i] == PredictParticle(particles[i], dt, std, velocity, yawRate, cos, sin, samples[i])
    ensures forall i :: 0 <= i < |r| ==> r[i] == particles[i].(x := r[i].x, y := r[i].y, theta := r[i].theta)
  {
    seq(|particles|, i requires 0 <= i < |particles| =>
      PredictParticle(particles[i], dt, std, velocity, yawRate, cos, sin, samples[i]))
  }

  /** The particle with its diagnostics replaced and everything else kept. */
  function SetAssociations(p: Particle, associations: seq<int>, senseX: seq<real>, senseY: seq<real>)
    : (r: Particle)
    ensures r.associations == associations && r.senseX == senseX && r.senseY == senseY
    ensures r.id == p.id && r.x == p.x && r.y == p.y && r.theta == p.theta && r.weight == p.weight
  {
    p.(associations := associations, senseX := senseX, senseY := senseY)
  }

  /** Nothing from an earlier call survives a later one. */
  lemma SetAssociationsOverwrites(p: Particle, a1: seq<int>, x1: seq<real>, y1: seq<real>,
                                  a2: seq<int>, x2: seq<real>, y2: seq<real>)
    ensures SetAssociations(SetAssociations(p, a1, x1, y1), a2, x2, y2) == SetAssociations(p, a2, x2, y2)
  {
  }
}

=== FILE: particles.dfy ===
/** Entities of the particle filter: particles, landmark observations, map
    landmarks and the explicit random draws that replace the generator. */
module Particles {

  /** A value that may be absent: `None` marks the cases where the filter has
      no defined value to give, such as an unmatched lookup. */
  datatype Option<+T> = None | Some(value: T)

  /** A weighted hypothesis of the vehicle's pose (map frame), together with
      the diagnostics attached for reporting: matched landmark ids and the
      sensed map-frame coordinates. */
  datatype Particle = Particle(
    id: int,
    x: real,
    y: real,
    theta: real,
    weight: real,
    associations: seq<int>,
    senseX: seq<real>,
    senseY: seq<real>)

  /** An observation (vehicle frame before the transform, map frame after
      it) or a predicted landmark; `id` carries the association result once one is made. */
  datatype LandmarkObs = LandmarkObs(id: int, x: real, y: real)

  /** A landmark of the static map. */
  datatype MapLandmark = MapLandmark(id: int, x: real, y: real)

  /** Standard deviations of the three pose dimensions. */
  datatype PoseStd = PoseStd(x: real, y: real, theta: real)

  /** One standard-normal sample per pose dimension: a normal draw with mean
      m and deviation s is represented as m + s * z. */
  datatype Noise = Noise(x: real, y: real, theta: real)

  function Abs(r: real): (a: real)
    ensures a >= 0.0
    ensures a == r || a == -r
  {
    if r < 0.0 then -r else r
  }
}

=== FILE: resampling.dfy ===
/** The resampling wheel. The random start index and the N uniform step
    draws are inputs; the wheel itself is deterministic given them. */
module Resampling {
  import opened Particles

  /** Multiplier applied to every step draw before it is added to `beta`. */
  const StepScale: real := 2.0

  function Weights(particles: seq<Particle>): (ws: seq<real>)
    ensures |ws| == |particles|
    ensures forall i :: 0 <= i < |ws| ==> ws[i] == particles[i].weight
  {
    seq(|particles|, i requires 0 <= i < |particles| => particles[i].weight)
  }

  /** The largest weight. */
  function MaxWeight(ws: seq<real>): (m: real)
    requires |ws| > 0
    ensures forall i :: 0 <= i < |ws| ==> ws[i] <= m
    ensures exists i :: 0 <= i < |ws| && ws[i] == m
    decreases |ws|
  {
    if |ws| == 1 then ws[0]
    else
      var m := MaxWeight(ws[1..]);
      assert forall i :: 1 <= i < |ws| ==> ws[i] == ws[1..][i - 1];
      if ws[0] >= m then ws[0] else m
  }

  ghost function Sum(ws: seq<real>): real
    decreases |ws|
  {
    if |ws| == 0 then 0.0 else Sum(ws[..|ws| - 1]) + ws[|ws| - 1]
  }

  ghost predicate NonNegative(ws: seq<real>) {
    forall i :: 0 <= i < |ws| ==> ws[i] >= 0.0
  }

  lemma {:induction false} SumPrefixStep(ws: seq<real>, i: int)
    requires 0 <= i < |ws|
    ensures Sum(ws[..i + 1]) == Sum(ws[..i]) + ws[i]
  {
    assert ws[..i + 1][..i] == ws[..i];
  }

  /** With non-negative weights every prefix sum is non-negative and no
      smaller than any weight it covers. */
  lemma {:induction false} SumBounds(ws: seq<real>, n: int)
    requires NonNegative(ws)
    requires 0 <= n <= |ws|
    ensures Sum(ws[..n]) >= 0.0
    ensures forall i :: 0 <= i < n ==> Sum(ws[..n]) >= ws[i]
    decreases n
  {
    if n > 0 {
      SumBounds(ws, n - 1);
      SumPrefixStep(ws, n - 1);
    }
  }

  /** Dropping the wheel position by one full turn lowers the turn count by one. */
  lemma TurnCountDrops(position: real, total: real)
    requires total > 0.0
    ensures ((position - total) / total).Floor == (position / total).Floor - 1
  {
    var q := position / total;
    var r := (position - total) / total;
    assert r * total == position - total;
    assert (q - 1.0) * total == position - total;
    MulMonotone(r, q - 1.0, total);
    MulMonotone(q - 1.0, r, total);
  }

  lemma MulMonotone(a: real, b: real, t: real)
    requires t > 0.0
    ensures a < b ==> a * t < b * t
  {
  }

  /** How many full turns the wheel can still make: the position reached so
      far (what is left of `beta` plus the weights already passed in this
      turn), measured in units of the total weight. */
  ghost function TurnsLeft(weights: seq<real>, index: int, beta: real): int
    requires 0 <= index <= |weights|
    requires Sum(weights) > 0.0
  {
    ((beta + Sum(weights[..index])) / Sum(weights)).Floor
  }

  /** One step of the inner walk either keeps the turn count and moves the
      index forward, or wraps round and uses up exactly one turn; the count
      is never negative while the walk continues. */
  lemma {:induction false} WheelStepDecreases(weights: seq<real>, index: int, beta: real)
    requires 0 <= index < |weights|
    requires NonNegative(weights)
    requires Sum(weights) > 0.0
    requires beta > weights[index]
    ensures TurnsLeft(weights, index, beta) >= 0
    ensures index + 1 < |weights| ==>
      TurnsLeft(weights, index + 1, beta - weights[index]) == TurnsLeft(weights, index, beta)
    ensures index + 1 == |weights| ==>
      TurnsLeft(weights, 0, beta - weights[index]) == TurnsLeft(weights, index, beta) - 1
  {
    WheelPositionPositive(weights, index, beta);
    if index + 1 < |weights| {
      WheelStepForward(weights, index, beta);
    } else {
      WheelStepWraps(weights, beta);
    }
  }

  /** Moving forward without wrapping keeps the turn count. */
  lemma WheelStepForward(weights: seq<real>, index: int, beta: real)
    requires 0 <= index && index + 1 < |weights|
    requires Sum(weights) > 0.0
    ensures TurnsLeft(weights, index + 1, beta - weights[index]) == TurnsLeft(weights, index, beta)
  {
    WheelStepPosition(weights, index, beta);
  }

  /** Wrapping round from the last index uses up exactly one turn. */
  lemma WheelStepWraps(weights: seq<real>, beta: real)
    requires |weights| > 0
    requires Sum(weights) > 0.0
    ensures TurnsLeft(weights, 0, beta - weights[|weights| - 1])
         == TurnsLeft(weights, |weights| - 1, beta) - 1
  {
    WheelStepPosition(weights, |weights| - 1, beta);
    TurnCountDrops(beta + Sum(weights[..|weights| - 1]), Sum(weights));
  }

  /** While the walk continues, the wheel position is positive, so the turn
      count is not negative. */
  lemma {:induction false} WheelPositionPositive(weights: seq<real>, index: int, beta: real)
    requires 0 <= index < |weights|
    requires NonNegative(weights)
    requires Sum(weights) > 0.0
    requires beta > weights[index]
    ensures TurnsLeft(weights, index, beta) >= 0
  {
    SumBounds(weights, index);
    DivPositive(beta + Sum(weights[..index]), Sum(weights));
  }

  /** One step of the inner walk keeps the wheel position when the index
      moves forward, and lowers it by exactly one turn of the total weight
      when the index wraps round. */
  lemma {:induction false} WheelStepPosition(weights: seq<real>, index: int, beta: real)
    requires 0 <= index < |weights|
    ensures index + 1 < |weights| ==>
      (beta - weights[index]) + Sum(weights[..index + 1]) == beta + Sum(weights[..index])
    ensures index + 1 == |weights| ==>
      (beta - weights[index]) + Sum(weights[..0]) == beta + Sum(weights[..index]) - Sum(weights)
  {
    SumPrefixStep(weights, index);
    assert weights[..|weights|] == weights;
  }

  /** `t` full turns of a wheel whose circumference is `total`. */
  ghost function FullTurns(t: nat, total: real): real
  {
    if t == 0 then 0.0 else FullTurns(t - 1, total) + total
  }

  /** Full turns are the product of their count and the circumference. */
  lemma {:induction false} FullTurnsIsProduct(t: nat, total: real)
    ensures FullTurns(t, total) == t as real * total
  {
    if t > 0 {
      FullTurnsIsProduct(t - 1, total);
      assert (t - 1) as real * total + total == t as real * total;
    }
  }

  /** Turns made in two walks add up. */
  lemma {:induction false} FullTurnsAdd(a: nat, b: nat, total: real)
    ensures FullTurns(a + b, total) == FullTurns(a, total) + FullTurns(b, total)
    decreases b
  {
    if b > 0 {
      FullTurnsAdd(a, b - 1, total);
    }
  }

  /** The wheel position, counted with the full turns made so far, is the
      same after one step of the inner walk. */
  lemma SpinStepKeepsPosition(weights: seq<real>, index: int, beta: real, turns: nat, position: real)
    requires 0 <= index < |weights|
    requires beta + Sum(weights[..index]) + FullTurns(turns, Sum(weights)) == position
    ensures index + 1 < |weights| ==>
      (beta - weights[index]) + Sum(weights[..index + 1]) + FullTurns(turns, Sum(weights)) == position
    ensures index + 1 == |weights| ==>
      (beta - weights[index]) + Sum(weights[..0]) + FullTurns(turns + 1, Sum(weights)) == position
  {
    WheelStepPosition(weights, index, beta);
  }

  lemma DivPositive(a: real, t: real)
    requires a > 0.0 && t > 0.0
    ensures a / t > 0.0
  {
  }

  /** One inner walk of the wheel: while `beta` exceeds the weight under the
      index, pay that weight and advance circularly. It stops, because each
      full turn pays the total weight, which is positive; on exit `beta` lies
      between zero and the weight under the index. The wheel position
      `beta + Sum(weights[..index])` is kept up to the `turns` full turns
      made, so the particle reached is the one whose slot of cumulative
      weight holds the starting position. */
  method Spin(weights: seq<real>, index: int, beta: real) returns (index': int, beta': real, ghost turns: nat)
    requires |weights| > 0
    requires 0 <= index < |weights|
    requires NonNegative(weights)
    requires exists i :: 0 <= i < |weights| && weights[i] > 0.0
    requires beta >= 0.0
    ensures 0 <= index' < |weights|
    ensures 0.0 <= beta' <= weights[index']
    ensures beta > 0.0 ==> beta' > 0.0
    ensures beta' + Sum(weights[..index']) + FullTurns(turns, Sum(weights)) == beta + Sum(weights[..index])
    ensures beta <= weights[index] ==> index' == index && beta' == beta
  {
    var n := |weights|;
    assert weights[..n] == weights;
    SumBounds(weights, n);
    ghost var position := beta + Sum(weights[..index]);
    index', beta', turns := index, beta, 0;
    while beta' > weights[index']
      invariant 0 <= index' < n
      invariant beta' >= 0.0
      invariant beta > 0.0 ==> beta' > 0.0
      invariant beta' + Sum(weights[..index']) + FullTurns(turns, Sum(weights)) == position
      invariant beta <= weights[index] ==> index' == index && beta' == beta
      decreases TurnsLeft(weights, index', beta'), n - index'
    {
      WheelStepDecreases(weights, index', beta');
      SpinStepKeepsPosition(weights, index', beta', turns, position);
      beta' := beta' - weights[index'];
      if index' + 1 < n {
        index' := index' + 1;
      } else {
        index', turns := 0, turns + 1;
      }
    }
  }

  /** Where the wheel points while choosing the k-th particle, unwound: the
      cumulative weight before the start index plus every scaled draw so far. */
  ghost function WheelPosition(weights: seq<real>, start: int, draws: seq<real>, k: int): real
    requires 0 <= start <= |weights|
    requires 0 <= k < |draws|
  {
    Sum(weights[..start]) + StepScale * Sum(draws[..k + 1])
  }

  /** After taking `t` full turns off `position`, it lies in particle `i`'s
      slot of cumulative weight, (Sum(weights[..i]), Sum(weights[..i + 1])].
      The slot is open below because the walk only stops once `beta` is no
      longer above the weight under the index, and a positive `beta` never
      reaches zero. */
  ghost predicate InSlotAfterTurns(weights: seq<real>, i: int, position: real, t: nat) {
    && 0 <= i < |weights|
    && Sum(weights[..i]) < position - FullTurns(t, Sum(weights)) <= Sum(weights[..i + 1])
  }

  /** The k-th pick is `i` with `t` turns: while every draw so far is zero the
      wheel has not moved and the start index is picked; afterwards the pick
      is the particle whose slot holds the k-th wheel position. */
  ghost predicate PickAt(weights: seq<real>, start: int, draws: seq<real>, k: int, i: int, t: nat)
    requires 0 <= start <= |weights|
    requires 0 <= k < |draws|
  {
    if Sum(draws[..k + 1]) == 0.0 then i == start
    else InSlotAfterTurns(weights, i, WheelPosition(weights, start, draws, k), t)
  }

  /** Adding the k-th scaled draw to `beta` brings the wheel, counted with
      the full turns made so far, to the k-th wheel position. */
  lemma {:induction false} DrawAdvancesWheel(weights: seq<real>, start: int, draws: seq<real>, k: int,
                                             index: int, beta: real, turns: nat)
    requires 0 <= start <= |weights|
    requires 0 <= index <= |weights|
    requires 0 <= k < |draws|
    requires beta + Sum(weights[..index]) + FullTurns(turns, Sum(weights))
          == Sum(weights[..start]) + StepScale * Sum(draws[..k])
    ensures (beta + draws[k] * StepScale) + Sum(weights[..index]) + FullTurns(turns, Sum(weights))
         == WheelPosition(weights, start, draws, k)
  {
    SumPrefixStep(draws, k);
  }

  /** A walk that ends with 0 < beta <= weights[index] has landed in the
      slot of particle `index`. */
  lemma {:induction false} WalkEndsInSlot(weights: seq<real>, index: int, beta: real, turns: nat, position: real)
    requires 0 <= index < |weights|
    requires 0.0 < beta <= weights[index]
    requires beta + Sum(weights[..index]) + FullTurns(turns, Sum(weights)) == position
    ensures InSlotAfterTurns(weights, index, position, turns)
  {
    SumPrefixStep(weights, index);
  }

  /** Every pick so far is the one `PickAt` describes, with its recorded turns. */
  ghost predicate PicksInSlots(weights: seq<real>, start: int, draws: seq<real>, picked: seq<nat>, slotTurns: seq<nat>)
    requires 0 <= start <= |weights|
    requires |picked| == |slotTurns| <= |draws|
  {
    forall k :: 0 <= k < |picked| ==> PickAt(weights, start, draws, k, picked[k], slotTurns[k])
  }

  lemma PicksInSlotsExtend(weights: seq<real>, start: int, draws: seq<real>, picked: seq<nat>, slotTurns: seq<nat>,
                           index: nat, turns: nat)
    requires 0 <= start <= |weights|
    requires |picked| == |slotTurns| < |draws|
    requires PicksInSlots(weights, start, draws, picked, slotTurns)
    requires PickAt(weights, start, draws, |picked|, index, turns)
    ensures PicksInSlots(weights, start, draws, picked + [index], slotTurns + [turns])
  {
  }

  /** Particle `i` is the k-th pick of the wheel. */
  ghost predicate SelectedAt(weights: seq<real>, start: int, draws: seq<real>, k: int, i: int)
    requires 0 <= start <= |weights|
    requires 0 <= k < |draws|
  {
    exists t: nat :: PickAt(weights, start, draws, k, i, t)
  }

  lemma PicksInSlotsSelected(weights: seq<real>, start: int, draws: seq<real>, picked: seq<nat>, slotTurns: seq<nat>)
    requires 0 <= start <= |weights|
    requires |picked| == |slotTurns| <= |draws|
    requires PicksInSlots(weights, start, draws, picked, slotTurns)
    ensures forall k :: 0 <= k < |picked| ==> SelectedAt(weights, start, draws, k, picked[k])
  {
  }

  /** A particle whose slot holds a position has positive weight: its slot
      is not empty. */
  lemma SlotHasWeight(weights: seq<real>, i: int, position: real, t: nat)
    requires InSlotAfterTurns(weights, i, position, t)
    ensures weights[i] > 0.0
  {
    SumPrefixStep(weights, i);
  }

  /** Once some draw has been positive, every pick has positive weight. */
  lemma SelectedHasWeight(weights: seq<real>, start: int, draws: seq<real>, k: int, i: int)
    requires 0 <= start <= |weights|
    requires 0 <= k < |draws|
    requires SelectedAt(weights, start, draws, k, i)
    requires Sum(draws[..k + 1]) > 0.0
    ensures 0 <= i < |weights| && weights[i] > 0.0
  {
    var t: nat :| PickAt(weights, start, draws, k, i, t);
    SlotHasWeight(weights, i, WheelPosition(weights, start, draws, k), t);
  }

  /** With non-negative weights a longer prefix weighs no less. */
  lemma {:induction false} PrefixMonotone(ws: seq<real>, i: int, j: int)
    requires NonNegative(ws)
    requires 0 <= i <= j <= |ws|
    ensures Sum(ws[..i]) <= Sum(ws[..j])
    decreases j - i
  {
    if i < j {
      PrefixMonotone(ws, i, j - 1);
      SumPrefixStep(ws, j - 1);
    }
  }

  /** More turns take off at least one more circumference. */
  lemma {:induction false} FullTurnsGap(a: nat, b: nat, total: real)
    requires a < b
    requires total > 0.0
    ensures FullTurns(b, total) >= FullTurns(a, total) + total
    decreases b - a
  {
    if a + 1 < b {
      FullTurnsGap(a, b - 1, total);
    }
  }

  /** Every slot lies within one turn of the wheel, (0, total]. */
  lemma SlotWithinOneTurn(weights: seq<real>, i: int, position: real, t: nat)
    requires NonNegative(weights)
    requires InSlotAfterTurns(weights, i, position, t)
    ensures 0.0 < position - FullTurns(t, Sum(weights)) <= Sum(weights)
  {
    SumBounds(weights, i);
    PrefixMonotone(weights, i + 1, |weights|);
    assert weights[..|weights|] == weights;
  }

  /** A wheel position lies in at most one slot, whatever the turns: the
      slots (Sum(weights[..i]), Sum(weights[..i + 1])] do not overlap and
      together span one turn. */
  lemma SlotUnique(weights: seq<real>, position: real, i: int, ti: nat, j: int, tj: nat)
    requires NonNegative(weights)
    requires Sum(weights) > 0.0
    requires InSlotAfterTurns(weights, i, position, ti)
    requires InSlotAfterTurns(weights, j, position, tj)
    ensures i == j && ti == tj
  {
    SlotWithinOneTurn(weights, i, position, ti);
    SlotWithinOneTurn(weights, j, position, tj);
    if ti < tj {
      FullTurnsGap(ti, tj, Sum(weights));
    } else if tj < ti {
      FullTurnsGap(tj, ti, Sum(weights));
    }
    if i < j {
      PrefixMonotone(weights, i + 1, j);
    } else if j < i {
      PrefixMonotone(weights, j + 1, i);
    }
  }

  /** The wheel picks exactly one particle per draw. */
  lemma SelectedUnique(weights: seq<real>, start: int, draws: seq<real>, k: int, i: int, j: int)
    requires NonNegative(weights)
    requires Sum(weights) > 0.0
    requires 0 <= start <= |weights|
    requires 0 <= k < |draws|
    requires SelectedAt(weights, start, draws, k, i)
    requires SelectedAt(weights, start, draws, k, j)
    ensures i == j
  {
    var ti: nat :| PickAt(weights, start, draws, k, i, ti);
    var tj: nat :| PickAt(weights, start, draws, k, j, tj);
    if Sum(draws[..k + 1]) != 0.0 {
      SlotUnique(weights, WheelPosition(weights, start, draws, k), i, ti, j, tj);
    }
  }

  /** Weights [1, 0, 1], start 0, draws [0.5, 0, 0.1]: the first draw
      brings `beta` to exactly the first weight, which does not exceed it, so
      particle 0 is picked; the zero second draw leaves it there. Neither pick
      can be the zero-weight particle on the slot boundary. */
  lemma BoundaryScenario(i: int, j: int)
    requires SelectedAt([1.0, 0.0, 1.0], 0, [0.5, 0.0, 0.1], 0, i)
    requires SelectedAt([1.0, 0.0, 1.0], 0, [0.5, 0.0, 0.1], 1, j)
    ensures i == 0 && j == 0
  {
    var ws := [1.0, 0.0, 1.0];
    var ds := [0.5, 0.0, 0.1];
    assert ws[..0] == [] && ws[..1] == [1.0] && ws[..2] == [1.0, 0.0] && ws[..3] == ws;
    assert Sum(ws[..1]) == 1.0;
    assert Sum(ws[..2]) == 1.0;
    assert Sum(ws) == 2.0;
    assert ds[..1] == [0.5] && ds[..2] == [0.5, 0.0];
    assert Sum(ds[..1]) == 0.5;
    assert Sum(ds[..2]) == 0.5;
    assert NonNegative(ws);
    assert PickAt(ws, 0, ds, 0, 0, 0);
    assert PickAt(ws, 0, ds, 1, 0, 0);
    SelectedUnique(ws, 0, ds, 0, i, 0);
    SelectedUnique(ws, 0, ds, 1, j, 0);
  }

  /** The bookkeeping of the wheel before the k-th draw: the position reached,
      counted with the full turns made, is where the draws so far have moved
      it from the start index; until a draw is positive, nothing has moved. */
  ghost predicate WheelAt(weights: seq<real>, start: int, draws: seq<real>, k: int, index: int, beta: real, turns: nat)
    requires 0 <= start <= |weights|
    requires 0 <= index <= |weights|
    requires 0 <= k <= |draws|
  {
    && beta + Sum(weights[..index]) + FullTurns(turns, Sum(weights)) == Sum(weights[..start]) + StepScale * Sum(draws[..k])
    && (Sum(draws[..k]) == 0.0 ==> beta == 0.0 && index == start)
    && (Sum(draws[..k]) > 0.0 ==> beta > 0.0)
  }

  /** One draw of the wheel: add the scaled draw to `beta` and walk. The
      particle reached is the k-th pick, and the bookkeeping of position and
      turns carries on to the next draw. */
  method WheelDraw(weights: seq<real>, start: int, draws: seq<real>, k: int,
                   index: int, beta: real, ghost turns: nat)
    returns (index': int, beta': real, ghost turns': nat)
    requires 0 <= start < |weights|
    requires 0 <= index < |weights|
    requires 0 <= k < |draws|
    requires NonNegative(weights)
    requires exists i :: 0 <= i < |weights| && weights[i] > 0.0
    requires NonNegative(draws)
    requires beta >= 0.0
    requires WheelAt(weights, start, draws, k, index, beta, turns)
    ensures 0 <= index' < |weights|
    ensures 0.0 <= beta' <= weights[index']
    ensures draws[k] > 0.0 ==> beta' > 0.0
    ensures beta > 0.0 ==> beta' > 0.0
    ensures beta == 0.0 && draws[k] == 0.0 ==> index' == index && beta' == 0.0
    ensures WheelAt(weights, start, draws, k + 1, index', beta', turns')
    ensures PickAt(weights, start, draws, k, index', turns')
  {
    DrawAdvancesWheel(weights, start, draws, k, index, beta, turns);
    SumPrefixStep(draws, k);
    SumBounds(draws, k);
    ghost var t;
    index', beta', t := Spin(weights, index, beta + draws[k] * StepScale);
    FullTurnsAdd(turns, t, Sum(weights));
    turns' := turns + t;
    if beta' > 0.0 {
      WalkEndsInSlot(weights, index', beta', turns', WheelPosition(weights, start, draws, k));
    }
  }

  /** The wheel over the weights alone: draw after draw, `beta` grows by
      StepScale times the draw and the index keeps walking from where the
      previous draw left it. Each pick is in range and is the unique particle
      `SelectedAt` describes; it has positive weight once any draw so far
      is positive. */
  method WheelPicks(weights: seq<real>, start: int, draws: seq<real>) returns (picked: seq<nat>)
    requires 0 <= start < |weights|
    requires NonNegative(weights)
    requires exists i :: 0 <= i < |weights| && weights[i] > 0.0
    requires forall k :: 0 <= k < |draws| ==> draws[k] >= 0.0
    ensures |picked| == |draws|
    ensures forall k :: 0 <= k < |picked| ==> picked[k] < |weights|
    ensures forall k :: 0 <= k < |picked| && draws[k] > 0.0 ==> weights[picked[k]] > 0.0
    ensures forall k :: 0 <= k < |picked| ==> SelectedAt(weights, start, draws, k, picked[k])
    ensures forall k :: 0 <= k < |picked| && Sum(draws[..k + 1]) > 0.0 ==> weights[picked[k]] > 0.0
  {
    var index := start;
    var beta := 0.0;
    picked := [];
    ghost var turns: nat := 0;
    ghost var slotTurns: seq<nat> := [];
    assert draws[..0] == [];
    assert NonNegative(draws);
    for i := 0 to |draws|
      invariant 0 <= index < |weights|
      invariant beta >= 0.0
      invariant |picked| == i && |slotTurns| == i
      invariant forall k :: 0 <= k < i ==> picked[k] < |weights|
      invariant forall k :: 0 <= k < i && draws[k] > 0.0 ==> weights[picked[k]] > 0.0
      invariant WheelAt(weights, start, draws, i, index, beta, turns)
      invariant PicksInSlots(weights, start, draws, picked, slotTurns)
    {
      index, beta, turns := WheelDraw(weights, start, draws, i, index, beta, turns);
      PicksInSlotsExtend(weights, start, draws, picked, slotTurns, index, turns);
      picked := picked + [index];
      slotTurns := slotTurns + [turns];
    }
    PicksInSlotsSelected(weights, start, draws, picked, slotTurns);
    forall k | 0 <= k < |picked| && Sum(draws[..k + 1]) > 0.0
      ensures weights[picked[k]] > 0.0
    {
      SelectedHasWeight(weights, start, draws, k, picked[k]);
    }
  }

  /** The resampling wheel over the particle set. Every output particle is a
      copy of the input particle at a valid index: the start particle while
      every draw so far is zero, and afterwards the one whose slot of
      cumulative weight holds the wheel position, taken modulo the total
      weight (unique by `SelectedUnique`). Once any draw has been positive a
      zero-weight particle is never picked. */
  method Resample(particles: seq<Particle>, start: int, draws: seq<real>)
    returns (picked: seq<nat>, resampled: seq<Particle>)
    requires |particles| > 0
    requires 0 <= start < |particles|
    requires forall i :: 0 <= i < |particles| ==> particles[i].weight >= 0.0
    requires MaxWeight(Weights(particles)) > 0.0
    requires |draws| == |particles|
    requires forall k :: 0 <= k < |draws| ==> 0.0 <= draws[k] < MaxWeight(Weights(particles))
    ensures |picked| == |particles| && |resampled| == |particles|
    ensures forall k :: 0 <= k < |picked| ==> picked[k] < |particles| && resampled[k] == particles[picked[k]]
    ensures forall k :: 0 <= k < |picked| && draws[k] > 0.0 ==> particles[picked[k]].weight > 0.0
    ensures forall k :: 0 <= k < |picked| ==> SelectedAt(Weights(particles), start, draws, k, picked[k])
    ensures forall k :: 0 <= k < |picked| && Sum(draws[..k + 1]) > 0.0 ==> particles[picked[k]].weight > 0.0
  {
    var weights := Weights(particles);
    assert NonNegative(weights);
    picked := WheelPicks(weights, start, draws);
    resampled := seq(|picked|, k requires 0 <= k < |picked| => particles[picked[k]]);
  }
}

=== FILE: weighting.dfy ===
/** Importance weighting of one particle: the in-range landmark box filter,
    the vehicle-to-map transform, data association, the lookup of each
    observation's associated prediction and the product of per-observation
    factors. Trigonometry and the Gaussian density are parameters. */
module Weighting {
  import opened Particles
  import opened Association

  /** Both coordinate differences are within the sensor range, boundary included. */
  predicate InSensorBox(l: MapLandmark, px: real, py: real, range: real) {
    Abs(l.x - px) <= range && Abs(l.y - py) <= range
  }

  function AsPrediction(l: MapLandmark): LandmarkObs {
    LandmarkObs(l.id, l.x, l.y)
  }

  /** The map landmarks inside the sensor box around (px, py), in map order. */
  function InRangePredictions(landmarks: seq<MapLandmark>, px: real, py: real, range: real): (r: seq<LandmarkObs>)
    ensures |r| <= |landmarks|
    ensures forall l :: l in landmarks && InSensorBox(l, px, py, range) ==> AsPrediction(l) in r
    ensures forall q :: q in r ==>
      exists l :: l in landmarks && InSensorBox(l, px, py, range) && q == AsPrediction(l)
    decreases |landmarks|
  {
    if |landmarks| == 0 then []
    else
      var rest := InRangePredictions(landmarks[1..], px, py, range);
      if InSensorBox(landmarks[0], px, py, range) then [AsPrediction(landmarks[0])] + rest else rest
  }

  /** Filtering a concatenation filters each part: the kept landmarks appear
      in their original map order. */
  lemma {:induction false} InRangePredictionsConcat(a: seq<MapLandmark>, b: seq<MapLandmark>, px: real, py: real, range: real)
    ensures InRangePredictions(a + b, px, py, range)
         == InRangePredictions(a, px, py, range) + InRangePredictions(b, px, py, range)
    decreases |a|
  {
    if |a| > 0 {
      assert (a + b)[0] == a[0];
      assert (a + b)[1..] == a[1..] + b;
      InRangePredictionsConcat(a[1..], b, px, py, range);
    } else {
      assert a + b == b;
    }
  }

  /** Rotation by the particle's heading (given as its cosine and sine)
      followed by translation to the particle's position. For a genuine
      rotation the observation keeps its distance from the particle. */
  function ToMapFrame(p: Particle, cosTheta: real, sinTheta: real, o: LandmarkObs): (t: LandmarkObs)
    ensures t.id == o.id
    ensures cosTheta * cosTheta + sinTheta * sinTheta == 1.0 ==>
      (t.x - p.x) * (t.x - p.x) + (t.y - p.y) * (t.y - p.y) == o.x * o.x + o.y * o.y
  {
    RotationKeepsLength(cosTheta, sinTheta, o.x, o.y);
    LandmarkObs(o.id,
                cosTheta * o.x - sinTheta * o.y + p.x,
                sinTheta * o.x + cosTheta * o.y + p.y)
  }

  /** The inverse transform: translation back, then rotation by minus the heading. */
  function ToVehicleFrame(p: Particle, cosTheta: real, sinTheta: real, t: LandmarkObs): (o: LandmarkObs)
    ensures o.id == t.id
  {
    LandmarkObs(t.id,
                cosTheta * (t.x - p.x) + sinTheta * (t.y - p.y),
                cosTheta * (t.y - p.y) - sinTheta * (t.x - p.x))
  }

  /** For a genuine rotation (cos² + sin² = 1) the transform is invertible. */
  lemma MapFrameRoundTrip(p: Particle, cosTheta: real, sinTheta: real, o: LandmarkObs)
    requires cosTheta * cosTheta + sinTheta * sinTheta == 1.0
    ensures ToVehicleFrame(p, cosTheta, sinTheta, ToMapFrame(p, cosTheta, sinTheta, o)) == o
  {
  }

  /** (c·x - s·y)² + (s·x + c·y)² = (c² + s²)(x² + y²). */
  lemma RotationKeepsLength(c: real, s: real, x: real, y: real)
    ensures c * c + s * s == 1.0 ==>
      (c * x - s * y) * (c * x - s * y) + (s * x + c * y) * (s * x + c * y) == x * x + y * y
  {
  }

  /** Every observation transformed with the particle's pose. */
  function TransformObservations(p: Particle, cos: real -> real, sin: real -> real, observations: seq<LandmarkObs>)
    : (r: seq<LandmarkObs>)
    ensures |r| == |observations|
    ensures forall j :: 0 <= j < |r| ==> r[j].id == observations[j].id
    ensures forall j :: 0 <= j < |r| ==> r[j] == ToMapFrame(p, cos(p.theta), sin(p.theta), observations[j])
  {
    seq(|observations|, j requires 0 <= j < |observations| =>
      ToMapFrame(p, cos(p.theta), sin(p.theta), observations[j]))
  }

  /** `k` is the last entry of `predictions` carrying `id`. */
  ghost predicate IsLastWithId(predictions: seq<LandmarkObs>, id: int, k: int) {
    && 0 <= k < |predictions|
    && predictions[k].id == id
    && forall j :: k < j < |predictions| ==> predictions[j].id != id
  }

  /** The lookup of an associated prediction by id. The scan has no early
      exit, so a later entry with the same id overrides an earlier one; when
      nothing carries the id there is no coordinate to read (`None`). */
  function LastWithId(predictions: seq<LandmarkObs>, id: int): (r: Option<nat>)
    ensures r.None? <==> forall k :: 0 <= k < |predictions| ==> predictions[k].id != id
    ensures r.Some? ==> IsLastWithId(predictions, id, r.value)
    decreases |predictions|
  {
    if |predictions| == 0 then None
    else
      var last := |predictions| - 1;
      if predictions[last].id == id then Some(last)
      else
        assert forall k :: 0 <= k < last ==> predictions[..last][k] == predictions[k];
        LastWithId(predictions[..last], id)
  }

  /** The likelihood factor of one associated observation: the Gaussian
      density of (prediction - observation), or `None` when no prediction
      carries the associated id. */
  function ObservationFactor(predictions: seq<LandmarkObs>, o: LandmarkObs, gauss: (real, real) -> real)
    : (r: Option<real>)
    ensures r.None? <==> forall k :: 0 <= k < |predictions| ==> predictions[k].id != o.id
  {
    match LastWithId(predictions, o.id)
    case None => None
    case Some(k) => Some(gauss(predictions[k].x - o.x, predictions[k].y - o.y))
  }

  /** The factor is the density at the last prediction carrying the id. */
  lemma ObservationFactorAtLast(predictions: seq<LandmarkObs>, o: LandmarkObs, gauss: (real, real) -> real, k: int)
    requires IsLastWithId(predictions, o.id, k)
    ensures ObservationFactor(predictions, o, gauss) == Some(gauss(predictions[k].x - o.x, predictions[k].y - o.y))
  {
  }

  /** The factors of all observations, in observation order, when each is defined. */
  function Factors(predictions: seq<LandmarkObs>, associated: seq<LandmarkObs>, gauss: (real, real) -> real)
    : (r: Option<seq<real>>)
    ensures r.Some? <==>
      forall j :: 0 <= j < |associated| ==> LastWithId(predictions, associated[j].id).Some?
    ensures r.Some? ==>
      && |r.value| == |associated|
      && forall j :: 0 <= j < |associated| ==>
           ObservationFactor(predictions, associated[j], gauss) == Some(r.value[j])
  {
    if forall j :: 0 <= j < |associated| ==> LastWithId(predictions, associated[j].id).Some? then
      Some(seq(|associated|, j requires 0 <= j < |associated| =>
        ObservationFactor(predictions, associated[j], gauss).value))
    else None
  }

  /** A weight that starts at 1.0 and is multiplied by each factor in turn. */
  function Product(factors: seq<real>): real
    decreases |factors|
  {
    if |factors| == 0 then 1.0 else Product(factors[..|factors| - 1]) * factors[|factors| - 1]
  }

  /** Accumulating over a concatenation multiplies the two accumulations. */
  lemma {:induction false} ProductConcat(a: seq<real>, b: seq<real>)
    ensures Product(a + b) == Product(a) * Product(b)
    decreases |b|
  {
    if |b| == 0 {
      assert a + b == a;
    } else {
      var last := |b| - 1;
      assert (a + b)[..|a + b| - 1] == a + b[..last];
      ProductConcat(a, b[..last]);
    }
  }

  /** The weight of a particle given its predictions and associated observations. */
  function ParticleWeight(predictions: seq<LandmarkObs>, associated: seq<LandmarkObs>, gauss: (real, real) -> real)
    : (r: Option<real>)
    ensures |associated| == 0 ==> r == Some(1.0)
  {
    match Factors(predictions, associated, gauss)
    case None => None
    case Some(fs) => Some(Product(fs))
  }

  /** One more observation multiplies the accumulated weight by its factor:
      the loop step of the weighting pass. */
  lemma WeightAccumulates(predictions: seq<LandmarkObs>, associated: seq<LandmarkObs>, o: LandmarkObs,
                          gauss: (real, real) -> real, w: real, f: real)
    requires ParticleWeight(predictions, associated, gauss) == Some(w)
    requires ObservationFactor(predictions, o, gauss) == Some(f)
    ensures ParticleWeight(predictions, associated + [o], gauss) == Some(w * f)
  {
    var fs := Factors(predictions, associated, gauss).value;
    FactorsAppend(predictions, associated, o, gauss);
    assert ParticleWeight(predictions, associated + [o], gauss) == Some(Product(fs + [f]));
    ProductStep(fs, f, w);
  }

  lemma ProductStep(fs: seq<real>, f: real, w: real)
    requires Product(fs) == w
    ensures Product(fs + [f]) == w * f
  {
    ProductAppend(fs, f);
  }

  lemma FactorsAppend(predictions: seq<LandmarkObs>, associated: seq<LandmarkObs>, o: LandmarkObs,
                      gauss: (real, real) -> real)
    requires Factors(predictions, associated, gauss).Some?
    requires ObservationFactor(predictions, o, gauss).Some?
    ensures Factors(predictions, associated + [o], gauss)
         == Some(Factors(predictions, associated, gauss).value + [ObservationFactor(predictions, o, gauss).value])
  {
    var both := associated + [o];
    var fs := Factors(predictions, associated, gauss).value;
    var f := ObservationFactor(predictions, o, gauss).value;
    assert forall j :: 0 <= j < |associated| ==> both[j] == associated[j];
    assert both[|associated|] == o;
    assert LastWithId(predictions, o.id).Some?;
    assert forall j :: 0 <= j < |both| ==> LastWithId(predictions, both[j].id).Some?;
    var gs := Factors(predictions, both, gauss).value;
    assert forall j :: 0 <= j < |fs| ==> gs[j] == fs[j];
    assert gs[|fs|] == f;
    assert gs == fs + [f];
  }

  lemma ProductAppend(fs: seq<real>, f: real)
    ensures Product(fs + [f]) == Product(fs) * f
  {
  }

  /** A product of non-negative factors is non-negative. */
  lemma {:induction false} ProductNonNegative(factors: seq<real>)
    requires forall j :: 0 <= j < |factors| ==> factors[j] >= 0.0
    ensures Product(factors) >= 0.0
    decreases |factors|
  {
    if |factors| > 0 {
      var last := |factors| - 1;
      ProductNonNegative(factors[..last]);
      MulNonNegative(Product(factors[..last]), factors[last]);
    }
  }

  lemma MulNonNegative(a: real, b: real)
    requires a >= 0.0 && b >= 0.0
    ensures a * b >= 0.0
  {
  }

  /** With a non-negative density every defined weight is non-negative, as the
      resampling wheel needs. */
  lemma WeightNonNegative(predictions: seq<LandmarkObs>, associated: seq<LandmarkObs>, gauss: (real, real) -> real)
    requires forall dx: real, dy: real :: gauss(dx, dy) >= 0.0
    requires ParticleWeight(predictions, associated, gauss).Some?
    ensures ParticleWeight(predictions, associated, gauss).value >= 0.0
  {
    var fs := Factors(predictions, associated, gauss).value;
    forall j | 0 <= j < |fs|
      ensures fs[j] >= 0.0
    {
      assert ObservationFactor(predictions, associated[j], gauss) == Some(fs[j]);
    }
    ProductNonNegative(fs);
  }

  /** After association with a non-empty prediction list, every lookup succeeds:
      an associated id always belongs to some prediction. */
  lemma AssociatedLookupSucceeds(predictions: seq<LandmarkObs>, observations: seq<LandmarkObs>, j: int)
    requires |predictions| > 0
    requires 0 <= j < |observations|
    ensures LastWithId(predictions, DataAssociation(predictions, observations)[j].id).Some?
  {
  }

  /** Every lookup after association succeeds exactly when there is no
      observation or at least one prediction. */
  lemma LookupsSucceedIff(predictions: seq<LandmarkObs>, observations: seq<LandmarkObs>)
    ensures (forall j :: 0 <= j < |observations| ==>
               LastWithId(predictions, DataAssociation(predictions, observations)[j].id).Some?)
        <==> |observations| == 0 || |predictions| > 0
  {
    if |predictions| > 0 {
      forall j | 0 <= j < |observations|
        ensures LastWithId(predictions, DataAssociation(predictions, observations)[j].id).Some?
      {
        AssociatedLookupSucceeds(predictions, observations, j);
      }
    } else if |observations| > 0 {
      assert LastWithId(predictions, DataAssociation(predictions, observations)[0].id).None?;
    }
  }

  /** The weighting of one particle: the weight is reset and recomputed, and
      nothing else about the particle changes. `None` stands for the source
      reading a coordinate that was never assigned. */
  function UpdateParticle(p: Particle, sensorRange: real, observations: seq<LandmarkObs>,
                          landmarks: seq<MapLandmark>, cos: real -> real, sin: real -> real,
                          gauss: (real, real) -> real): (r: Option<Particle>)
    ensures r.Some? <==> |observations| == 0 || |InRangePredictions(landmarks, p.x, p.y, sensorRange)| > 0
    ensures r.Some? ==> r.value == p.(weight := r.value.weight)
    ensures |observations| == 0 ==> r == Some(p.(weight := 1.0))
  {
    var predictions := InRangePredictions(landmarks, p.x, p.y, sensorRange);
    var associated := DataAssociation(predictions, TransformObservations(p, cos, sin, observations));
    LookupsSucceedIff(predictions, TransformObservations(p, cos, sin, observations));
    match ParticleWeight(predictions, associated, gauss)
    case None => None
    case Some(w) => Some(p.(weight := w))
  }

  /** The weighting pass over the whole particle set; `None` when any particle
      would read an unassigned coordinate. Only weights change. */
  function UpdateWeights(particles: seq<Particle>, sensorRange: real, observations: seq<LandmarkObs>,
                         landmarks: seq<MapLandmark>, cos: real -> real, sin: real -> real,
                         gauss: (real, real) -> real): (r: Option<seq<Particle>>)
    ensures r.Some? <==>
      forall i :: 0 <= i < |particles| ==>
        UpdateParticle(particles[i], sensorRange, observations, landmarks, cos, sin, gauss).Some?
    ensures r.Some? ==>
      && |r.value| == |particles|
      && forall i :: 0 <= i < |particles| ==>
           && r.value[i] == particles[i].(weight := r.value[i].weight)
           && UpdateParticle(particles[i], sensorRange, observations, landmarks, cos, sin, gauss) == Some(r.value[i])
  {
    if forall i :: 0 <= i < |particles| ==>
         UpdateParticle(particles[i], sensorRange, observations, landmarks, cos, sin, gauss).Some?
    then
      Some(seq(|particles|, i requires 0 <= i < |particles| =>
        UpdateParticle(particles[i], sensorRange, observations, landmarks, cos, sin, gauss).value))
    else None
  }

  /** A single particle at the origin facing along x, one landmark 5 units
      ahead, range 10, and one observation exactly at that landmark: the
      weight is the density at zero offset. */
  lemma PerfectMatchScenario(cos: real -> real, sin: real -> real, gauss: (real, real) -> real)
    requires cos(0.0) == 1.0 && sin(0.0) == 0.0
    ensures
      var p := Particle(0, 0.0, 0.0, 0.0, 1.0, [], [], []);
      UpdateParticle(p, 10.0, [LandmarkObs(0, 5.0, 0.0)], [MapLandmark(1, 5.0, 0.0)], cos, sin, gauss)
        == Some(p.(weight := gauss(0.0, 0.0)))
  {
    var p := Particle(0, 0.0, 0.0, 0.0, 1.0, [], [], []);
    var o := LandmarkObs(0, 5.0, 0.0);
    var q := LandmarkObs(1, 5.0, 0.0);
    ScenarioPredictions();
    ScenarioTransform(p, o, cos, sin);
    ScenarioAssociation(o, q);
    ScenarioWeight(q, gauss);
  }

  lemma ScenarioPredictions()
    ensures InRangePredictions([MapLandmark(1, 5.0, 0.0)], 0.0, 0.0, 10.0) == [LandmarkObs(1, 5.0, 0.0)]
  {
  }

  lemma ScenarioTransform(p: Particle, o: LandmarkObs, cos: real -> real, sin: real -> real)
    requires p.x == 0.0 && p.y == 0.0 && p.theta == 0.0
    requires cos(0.0) == 1.0 && sin(0.0) == 0.0
    ensures TransformObservations(p, cos, sin, [o]) == [o]
  {
  }

  lemma ScenarioAssociation(o: LandmarkObs, q: LandmarkObs)
    ensures DataAssociation([q], [o]) == [o.(id := q.id)]
  {
  }

  lemma ScenarioWeight(q: LandmarkObs, gauss: (real, real) -> real)
    ensures ParticleWeight([q], [q], gauss) == Some(gauss(0.0, 0.0))
  {
    assert LastWithId([q], q.id) == Some(0);
    assert ObservationFactor([q], q, gauss) == Some(gauss(0.0, 0.0));
    var fs := Factors([q], [q], gauss).value;
    assert fs[0] == gauss(0.0, 0.0);
    assert fs == [gauss(0.0, 0.0)];
    assert fs[..0] == [];
    assert Product(fs[..0]) == 1.0;
    assert Product(fs) == gauss(0.0, 0.0);
  }
}
